=== FILE: README.md ===
# Chat front-end reply handling, modelled in Dafny

`app.py` is a single-page chat application. It sends each prompt (and
optionally an uploaded picture) to a hosted flow with one HTTP POST. It then
turns the flow's JSON reply into the content of an assistant turn, or into an
error it shows instead. This project models that logic as pure functions:

- **`PyJson`** (`pyjson.dfy`) holds decoded JSON values and the Python
  operations the handlers apply to them: `in`, `.get`, `[key]`, `[0]`,
  iteration, truth tests and dict assignment. An exception Python would raise
  is an explicit `Raise(exc)` value, and `:-` propagates it the way Python
  unwinds. Objects are ordered field lists, because iterating a dict yields its
  keys in order.
- **`FlowClient`** (`flowclient.dfy`) builds the run URL, JSON payload and
  headers of `run_flow`, and the tweak map with the uploaded image. It also
  holds the sentinel `{"error": ...}` that `run_flow` returns when the body is
  not JSON. `ReadRequest` reads back everything a built request
  observably carries (`ReadBuildRequest`).
- **`Normalizer`** (`normalizer.dfy`) holds the two reply handlers,
  `NormalizeImageReply` (a picture was uploaded) and `NormalizeTextReply`. Each
  returns `Py<Outcome>`: `Ok(Reply(items))` appends an assistant turn,
  `Ok(Err(kind))` shows an error, and `Raise(exc)` is the crash. Both use the
  descent `LocateComponent`; only the text handler runs the per-element
  `Classify`/`Collect` loop.
- **`NormalizerFacts`** (`normalizer_facts.dfy`) states the handlers'
  priority orders and branch behaviour. It describes reply shapes by paths
  (`ComponentOf`, `Field`), independently of the handlers' own steps.
- **`ChatApp`** (`chatapp.dfy`) covers the session. It models the
  append-only history, what one prompt appends (`Submit`, `OnChatInput`), and
  the redraw loop as a projection of turns to widgets.

Crashes are modelled as an explicit outcome, not excluded by preconditions.
The raw accesses `first_component_output["message"]["text"]` and
`single_output["message"]["text"]` (lines 131, 161, 176) are modelled
by `MessageText`. It yields `KeyError` or `TypeError` unless `message` is a
dict holding `text`. `.get` on a non-dict is an `AttributeError`. `"error" in
response` on a number, boolean or `None` is a `TypeError`.

Behaviour of `app.py` worth noting, all of it modelled as written:

- An assistant turn's content can be empty. The text handler appends the
  collected list even when no element of `outputs` matched (lines 158, 169;
  `EmptyReplyExample`).
- The text handler never checks `error`. An error-bearing reply without
  `outputs` ends in the "could not retrieve" error (`TextIgnoresError`).
- Only the image handler probes `results.message.image`. Only the text
  handler walks a component's `outputs` list.
- A text value is whatever JSON value sits at `text`, not necessarily a
  string. `Item` therefore carries a `Json`.

## Model

| member | source | states |
|---|---|---|
| PyJson.Contains | app.py:113 | `k in x` is key membership on a dict, "some element equals the string" on a list and "occurs at some offset" on a string; any other operand raises TypeError |
| PyJson.IsInfixAt | app.py:113 | the substring test used for `in` on a string holds exactly when the needle is the slice of the string at some offset |
| PyJson.GetThenIndex | app.py:115-118 | after a truthy `x.get(k)`, the subscript `x[k]` does not raise and yields the same value, so each `.get` test guards the subscript after it |
| PyJson.ContainsThenIndex | app.py:113-114 | after a true `k in x`, `x[k]` succeeds exactly on a dict, where it equals `.get`; on a list or string it raises TypeError |
| PyJson.FirstIsHead | app.py:116 | `x[0]` raises exactly where the path function `Head` has no answer and otherwise agrees with it; it succeeds on every truthy list or string |
| PyJson.Iterate | app.py:159 | `for` over a list yields its elements; over a string, the one-character strings in order; over a dict, its keys in order; anything else raises TypeError |
| PyJson.Assign | app.py:107 | assigning a dict key makes it find the new value, leaves every other key's value alone, keeps key order when the key exists, and otherwise appends it |
| PyJson.Overwrite | app.py:107 | overwriting an existing key in place keeps the key order and changes no other key |
| FlowClient.RunUrl | app.py:54 | the run URL starts with the fixed base, flow id and `/api/v1/run/` path, and the endpoint is exactly what follows |
| FlowClient.RunUrlInjective | app.py:54 | distinct endpoints get distinct URLs |
| FlowClient.Payload | app.py:56-63 | the body always carries `input_value`, `output_type`, `input_type` first and in that order; it carries `tweaks` exactly when the tweaks are truthy |
| FlowClient.Headers | app.py:61-65 | `Content-Type: application/json` always; `Authorization` is present exactly for a non-empty token and then equals `"Bearer " + token` |
| FlowClient.BuildRequest | app.py:54-65 | the request's URL, message, tweak presence, content type and authorization presence, each in terms of the run arguments |
| FlowClient.ReadBuildRequest | app.py:54-65 | reading a built request back recovers the endpoint, message, both type markers, the truthy tweaks and the non-empty token |
| FlowClient.Response | app.py:68-72 | a decoded body is returned as is; a body that is not JSON becomes a dict whose only key is `error`, holding a string |
| FlowClient.WithImageTweak | app.py:106-107 | the copy maps `ChatInput-c1hCe` to `{"image": "data:image/jpeg;base64," + b64}` and every other component to what the original maps it to |
| FlowClient.ImageTweakOfDefaults | app.py:21-27 | applied to the application's five default tweaks, the image override keeps all five components in order and changes only the chat input |
| FlowClient.TweaksFor | app.py:102-107 | the sent tweaks are always a truthy dict with the five components; the chat input holds the image data URI exactly when a picture was uploaded |
| FlowClient.RequestFor | app.py:111 | the application's request reads back as endpoint `mark_cristalli`, the prompt, `chat`/`chat`, its tweaks and the token; the chat-input tweak has `image` exactly when a picture was uploaded |
| Normalizer.LocateComponent | app.py:115-118 | the shared descent: a falsy reply or one without truthy `outputs` is "could not retrieve" (both directions); "no outputs in the first output" exactly for a dict first output with falsy `outputs`; success only at the path-described first component output |
| Normalizer.MessageText | app.py:131 | `first_component_output["message"]["text"]` succeeds exactly when `message` is a dict holding `text`, and then yields it |
| Normalizer.ResultsMessage | app.py:119 | `first_component_output.get("results") and first_component_output["results"].get("message")` raises exactly when the component is not a dict or its `results` is truthy but not a dict; under a dict `results` it is `results.message` |
| Normalizer.NormalizeImageReply | app.py:113-139 | a dict with `error` yields exactly that error, and the API error arises only then; a dict without `error` or truthy `outputs` (`{}` included) is "could not retrieve", a falsy list or string too, while `null`, `false` or `0` raise TypeError at the `in` test; a dict first output with falsy `outputs` is "no outputs in the first output"; every reply has one item and comes from a reply with a first component output |
| Normalizer.Classify | app.py:160-167 | a dict with `message` gives `Text(message.text)` even when it also has `image`, and can raise only then; a dict whose `message` is not a dict holding `text` raises; a dict with `image` and no `message` gives `Image(x["image"])`; a string gives text; everything else is dropped, and only it |
| Normalizer.Collect | app.py:159-167 | the loop raises exactly when some element raises; it yields at most one item per element, and one per element only when none is dropped |
| Normalizer.NormalizeTextReply | app.py:148-184 | never reports an API error or the "no message" error; a falsy reply, or a dict without truthy `outputs`, is "could not retrieve"; a dict first output with falsy `outputs` is "no outputs in the first output" |
| NormalizerFacts.LocateComponentOf | app.py:115-118 | a dict reply whose path-described first component output exists is descended to it without a crash |
| NormalizerFacts.ImageErrorFirst | app.py:113-114 | once `"error" in response` holds, no shape is tried: a dict reports its error, and a list or string raises TypeError |
| NormalizerFacts.ImageResultsPriority | app.py:119-129 | under a truthy `results.message`, a truthy `text` wins, else a truthy `image`, else the "no message" error |
| NormalizerFacts.ImageReplyHasNoText | app.py:124-127 | an image reply implies a `results.message` dict whose `text` is absent or falsy and whose `image` is that truthy value |
| NormalizerFacts.ImageDirectMessage | app.py:119-135 | when `results` is falsy, or a dict with a falsy `message`, the image handler shows `message.text`, reports a component without `message`, or raises on a `message` without `text` |
| NormalizerFacts.TextIgnoresError | app.py:148 | a dict with `error` and no truthy `outputs` is "could not retrieve" in the text handler but the API error in the image handler |
| NormalizerFacts.TextResultsWins | app.py:152-155 | in the text handler a truthy `results.message.text` is the single reply item |
| NormalizerFacts.TextOutputsList | app.py:156-169 | otherwise a truthy component `outputs` is iterated (elements, characters or keys; anything else raises TypeError) and gives exactly one reply holding what the loop collects, or the exception |
| NormalizerFacts.TextDirectMessage | app.py:175-180 | with no results text and no truthy `outputs`, the text handler shows `message.text`, reports a component without `message`, or raises |
| NormalizerFacts.CollectAppend | app.py:159-167 | collecting a concatenation collects the parts in order, the first exception winning, so items keep their elements' order |
| NormalizerFacts.CollectIteratedText | app.py:159-167 | a string `outputs` gives one text item per character, and a dict `outputs` one per key, in order |
| NormalizerFacts.CollectOne | app.py:160-167 | a one-element list yields that element's classification |
| NormalizerFacts.CollectStrings | app.py:166-167 | a list of strings yields one text item per string, in order |
| NormalizerFacts.CollectDropsOthers | app.py:159-167 | a list of non-strings and non-dicts yields no items |
| NormalizerFacts.MixedOutputs | app.py:159-167 | `[{"message": {"text": "a"}}, {"image": "b"}, "c"]` yields text "a", image "b", text "c" |
| NormalizerFacts.EmptyReplyExample | app.py:156-169 | a reply whose component `outputs` matches nothing still gets a reply, with no items |
| ChatApp.Submit | app.py:98-139 | the user turn is appended first and the history is kept as a prefix; exactly one assistant turn follows, with the reply's items, exactly when the outcome is a reply |
| ChatApp.Encoded | app.py:102-105 | an uploaded picture is passed on as its unchanged base64 text, no upload as none, and an exception opening or encoding it propagates as that exception |
| ChatApp.Exchange | app.py:102-145 | with a picture, the image handler runs on the reply to the image-tweak request; without one, the text handler on the reply to the default-tweak request; an exception from encoding the picture or from the HTTP call ends the exchange with that exception |
| ChatApp.OnChatInput | app.py:97-145 | no prompt or an empty one changes nothing; otherwise the prompt's turn is appended, plus one assistant turn holding the reply's items exactly when the exchange yields a reply |
| ChatApp.LibraryFailureKeepsPrompt | app.py:97-111 | a failed HTTP call or an unencodable picture leaves exactly the user turn appended |
| ChatApp.UndecodableBody | app.py:68-72 | a body that is not JSON gives the decode error in the image handler and "could not retrieve" in the text handler; only the user turn is appended |
| ChatApp.HistoryAppendOnly | app.py:78-98 | over any sequence of runs, each answered by its own flow, the earlier history stays a prefix and each run adds at most two turns |
| ChatApp.ItemBlocks | app.py:87-91 | a content list draws at most one widget per item |
| ChatApp.ItemBlocksOfDisplayable | app.py:87-91 | string texts and images draw exactly one widget each, in order: markdown of the text, the image's picture |
| ChatApp.Render | app.py:82-91 | the redraw has one bubble per turn, in order, with the turn's role; a prompt is drawn as its markdown and a reply's items through the item loop |
| ChatApp.RenderAppend | app.py:82-91 | redrawing an extended history redraws the old turns unchanged, followed by the new ones |

## Left out

- Streamlit calls are left out: `st.markdown`, `st.image` and `st.error` as
  drawn while a reply arrives, `st.chat_message`, the uploader and the title.
  Only the history and its redraw loop are modelled.
- `requests.post` (app.py:67) is network I/O. It is the parameter `flow`,
  which maps a request to a reply body or to the exception the call raised.
  The call sets no timeout and can hang; a run that never returns is not
  modelled.
- `json()` decoding (app.py:69) is a foreign library call. A decoded value
  enters as `Decoded(json)`. A decode failure enters as `Undecodable(reason)`,
  with the exception text as an opaque string.
- `encode_image` (app.py:30-38) is left out: PIL conversion, JPEG encoding and
  base64 are foreign library calls. The upload enters as the base64 text, or
  as the exception `Image.open` or `encode_image` raised (app.py:104-105).
  Which pictures make them raise is not modelled.
- `load_dotenv`, `os.getenv` and the debug prints (app.py:11, 17-18, 66, 112,
  146) are environment and logging I/O. The token is a parameter.
- Errors carry the offending JSON value, not the formatted message text. Python
  `repr` formatting is not modelled.
- Numbers are exact reals. JSON's NaN and Infinity extensions are not
  modelled; no branch inspects a number beyond its truthiness.
- A decoded object never has two fields with one key. `Lookup` takes the first
  such field; Python keeps the last value. The two agree on every decoder
  output.

=== FILE: chatapp.dfy ===
/** The chat session of `app.py`: the append-only list of turns, what one
    submitted prompt appends to it, which handler runs, and how the list is
    redrawn. The network is the parameter `flow`: the reply body the flow
    returns for a request, or the exception the HTTP call raised. The upload
    is an input too: the base64 JPEG of the picture, or the exception opening
    or encoding it raised. */
module ChatApp {
  import opened PyJson
  import opened Normalizer
  import opened FlowClient

  datatype Role = User | Assistant

  /** A user turn holds the prompt string; an assistant turn the list of
      items a handler produced. */
  datatype Content = Said(text: string) | Shown(items: seq<Item>)

  datatype Turn = Turn(role: Role, content: Content)

  /** What one prompt leaves in the history: the user turn first, then one
      assistant turn for a reply; an error or a raised exception adds none. */
  function Submit(history: seq<Turn>, prompt: string, outcome: Py<Outcome>): (h: seq<Turn>)
    ensures |history| < |h| <= |history| + 2
    ensures h[..|history|] == history
    ensures h[|history|] == Turn(User, Said(prompt))
    ensures |h| == |history| + 2 <==> outcome.Ok? && outcome.value.Reply?
    ensures |h| == |history| + 2 ==> h[|history| + 1] == Turn(Assistant, Shown(outcome.value.items))
  {
    var withPrompt := history + [Turn(User, Said(prompt))];
    match outcome
    case Ok(Reply(items)) => withPrompt + [Turn(Assistant, Shown(items))]
    case _ => withPrompt
  }

  /** The handler for a reply: the image one when a picture was uploaded. */
  function Normalize(upload: Option<string>, resp: Json): Py<Outcome> {
    if upload.Some? then NormalizeImageReply(resp) else NormalizeTextReply(resp)
  }

  /** The upload as the image handler path sees it: no picture, a base64
      JPEG, or the exception opening or encoding the picture raised. */
  function Encoded(upload: Option<Py<string>>): (r: Py<Option<string>>)
    ensures r.Ok? <==> upload.None? || upload.value.Ok?
    ensures r.Ok? ==> (r.value.Some? <==> upload.Some?)
    ensures upload.Some? && upload.value.Ok? ==> r == Ok(Some(upload.value.value))
    ensures upload.Some? && upload.value.Raise? ==> r == Raise(upload.value.exc)
  {
    match upload
    case None => Ok(None)
    case Some(Ok(b64)) => Ok(Some(b64))
    case Some(Raise(e)) => Raise(e)
  }

  /** Everything after the user turn: encode the picture if there is one,
      send the request, and run the handler the upload selects. A library
      exception on the way ends the run like a handler's own exception. */
  function Exchange(prompt: string, upload: Option<Py<string>>, token: Option<string>,
                    flow: Request -> Py<Body>): (r: Py<Outcome>)
    ensures upload.Some? && upload.value.Raise? ==> r == Raise(upload.value.exc)
    ensures Encoded(upload).Ok? && flow(RequestFor(prompt, Encoded(upload).value, token)).Raise? ==>
              r == Raise(flow(RequestFor(prompt, Encoded(upload).value, token)).exc)
    ensures upload.Some? && upload.value.Ok? && flow(RequestFor(prompt, Some(upload.value.value), token)).Ok? ==>
              r == NormalizeImageReply(Response(flow(RequestFor(prompt, Some(upload.value.value), token)).value))
    ensures upload.None? && flow(RequestFor(prompt, None, token)).Ok? ==>
              r == NormalizeTextReply(Response(flow(RequestFor(prompt, None, token)).value))
  {
    var image :- Encoded(upload);
    var body :- flow(RequestFor(prompt, image, token));
    Normalize(image, Response(body))
  }

  /** One run of the script after the chat input. No prompt, or an empty one,
      changes nothing; otherwise the user turn is appended and the exchange's
      outcome decides whether an assistant turn follows. */
  function OnChatInput(history: seq<Turn>, input: Option<string>, upload: Option<Py<string>>,
                       token: Option<string>, flow: Request -> Py<Body>): (h: seq<Turn>)
    ensures input.None? || input.value == "" ==> h == history
    ensures input.Some? && input.value != "" ==>
              var outcome := Exchange(input.value, upload, token, flow);
              && |h| == |history| + (if outcome.Ok? && outcome.value.Reply? then 2 else 1)
              && h[..|history|] == history
              && h[|history|] == Turn(User, Said(input.value))
              && (|h| == |history| + 2 ==> h[|history| + 1] == Turn(Assistant, Shown(outcome.value.items)))
  {
    if input.Some? && input.value != "" then
      Submit(history, input.value, Exchange(input.value, upload, token, flow))
    else history
  }

  /** A failed HTTP call or a picture that cannot be encoded leaves the user
      turn, appended before either happens, and nothing else. */
  lemma LibraryFailureKeepsPrompt(history: seq<Turn>, prompt: string, upload: Option<Py<string>>,
                                  token: Option<string>, flow: Request -> Py<Body>)
    requires prompt != ""
    requires (upload.Some? && upload.value.Raise?)
          || (Encoded(upload).Ok? && flow(RequestFor(prompt, Encoded(upload).value, token)).Raise?)
    ensures OnChatInput(history, Some(prompt), upload, token, flow) == history + [Turn(User, Said(prompt))]
  {
  }

  /** A reply body that is not JSON never crashes either handler: the image
      handler shows the decode error, the text handler its "could not
      retrieve" error, and neither appends an assistant turn. */
  lemma UndecodableBody(history: seq<Turn>, prompt: string, upload: Option<string>, reason: string)
    ensures var resp := Response(Undecodable(reason));
            Normalize(upload, resp) ==
              if upload.Some? then Ok(Err(ApiError(Str("Failed to decode JSON response: " + reason))))
              else Ok(Err(NotRetrieved(resp)))
    ensures Submit(history, prompt, Normalize(upload, Response(Undecodable(reason))))
         == history + [Turn(User, Said(prompt))]
  {
    var resp := Response(Undecodable(reason));
    assert HasKey(resp, "error");
    assert !Truthy(Field(resp, "outputs"));
  }

  /** The history only grows: a run keeps every earlier turn in place. */
  lemma {:induction false} HistoryAppendOnly(history: seq<Turn>, runs: seq<Run>, token: Option<string>)
    ensures history <= RunAll(history, runs, token)
    ensures |RunAll(history, runs, token)| <= |history| + 2 * |runs|
    decreases |runs|
  {
    if |runs| > 0 {
      var next := OnChatInput(history, runs[0].input, runs[0].upload, token, runs[0].flow);
      HistoryAppendOnly(next, runs[1..], token);
      assert history <= next;
    }
  }

  /** One run of the script: the chat input, the upload, and how the hosted
      flow answers this run. The flow keeps its own memory of earlier turns,
      so each run has its own answer function. */
  datatype Run = Run(input: Option<string>, upload: Option<Py<string>>, flow: Request -> Py<Body>)

  /** A session of script runs, in order. */
  function RunAll(history: seq<Turn>, runs: seq<Run>, token: Option<string>): seq<Turn>
    decreases |runs|
  {
    if |runs| == 0 then history
    else RunAll(OnChatInput(history, runs[0].input, runs[0].upload, token, runs[0].flow), runs[1..], token)
  }

  /** One widget of a redrawn turn. */
  datatype Block = Markdown(text: string) | Picture(source: Json)

  /** A redrawn turn: a chat bubble for its role holding its widgets. */
  datatype Bubble = Bubble(role: Role, blocks: seq<Block>)

  /** The value a handler puts in a turn's content list for an item: the text
      itself, or a dict holding the image under `image`. */
  function Stored(item: Item): Json {
    match item
    case Text(body) => body
    case Image(source) => Obj([("image", source)])
  }

  /** How the redraw loop shows one stored value: a string as markdown, a
      dict with `image` as a picture, anything else not at all. */
  function StoredBlock(j: Json): Option<Block> {
    if j.Str? then Some(Markdown(j.s))
    else if HasKey(j, "image") then Some(Picture(Field(j, "image")))
    else None
  }

  /** The widgets of a content list, in order. */
  function ItemBlocks(items: seq<Item>): (bs: seq<Block>)
    ensures |bs| <= |items|
    decreases |items|
  {
    if |items| == 0 then []
    else
      var b := StoredBlock(Stored(items[0]));
      (if b.Some? then [b.value] else []) + ItemBlocks(items[1..])
  }

  /** How a turn is redrawn. */
  function RenderTurn(t: Turn): Bubble {
    match t.content
    case Said(text) => Bubble(t.role, [Markdown(text)])
    case Shown(items) => Bubble(t.role, ItemBlocks(items))
  }

  /** The redraw of the whole history: one bubble per turn, in order, with the
      turn's role, drawing a prompt as markdown and a reply through the item
      loop. */
  function Render(history: seq<Turn>): (bs: seq<Bubble>)
    ensures |bs| == |history|
    ensures forall i :: 0 <= i < |history| ==> bs[i].role == history[i].role
    ensures forall i :: 0 <= i < |history| ==>
              bs[i].blocks == match history[i].content
                              case Said(t) => [Markdown(t)]
                              case Shown(items) => ItemBlocks(items)
  {
    seq(|history|, i requires 0 <= i < |history| => RenderTurn(history[i]))
  }

  /** Redrawing after an append redraws the old turns unchanged and adds the
      new turns' bubbles after them. */
  lemma RenderAppend(h1: seq<Turn>, h2: seq<Turn>)
    ensures Render(h1 + h2) == Render(h1) + Render(h2)
  {
  }

  /** A text item holding a string is drawn as that markdown and an image item
      as that picture, so items of these kinds each give exactly one widget. */
  lemma {:induction false} ItemBlocksOfDisplayable(items: seq<Item>)
    requires forall i :: 0 <= i < |items| ==> items[i].Image? || items[i].body.Str?
    ensures |ItemBlocks(items)| == |items|
    ensures forall i :: 0 <= i < |items| ==>
              ItemBlocks(items)[i] == if items[i].Image? then Picture(items[i].source) else Markdown(items[i].body.s)
    decreases |items|
  {
    if |items| > 0 {
      ItemBlocksOfDisplayable(items[1..]);
      var first := if items[0].Image? then Picture(items[0].source) else Markdown(items[0].body.s);
      assert StoredBlock(Stored(items[0])) == Some(first);
      var rest := ItemBlocks(items[1..]);
      assert ItemBlocks(items) == [first] + rest;
      forall i | 1 <= i < |items|
        ensures ItemBlocks(items)[i] == if items[i].Image? then Picture(items[i].source) else Markdown(items[i].body.s)
      {
        assert items[1..][i - 1] == items[i];
      }
    }
  }
}

=== FILE: flowclient.dfy ===
/** The flow client of `app.py`: the URL, JSON payload and headers of the one
    POST it sends to the hosted flow, the per-component tweak map with the
    uploaded image spliced in, and the sentinel it returns when the reply body
    is not JSON. The HTTP exchange itself is not modelled: its reply enters as
    a `Body` value. */
module FlowClient {
  import opened PyJson

  const BaseApiUrl: string := "https://api.langflow.astra.datastax.com"
  const LangflowId: string := "cd71f509-33bf-4839-9b28-c8ecef44c7ee"
  /** The endpoint name of the flow the application talks to. */
  const Endpoint: string := "mark_cristalli"

  /** Everything in a run URL before the endpoint name. */
  const RunPrefix: string := BaseApiUrl + "/lf/" + LangflowId + "/api/v1/run/"

  /** The flow component that receives the uploaded image. */
  const ChatInputId: string := "ChatInput-c1hCe"

  /** The default per-component tweaks: an empty override for each component. */
  const TweakFields: seq<(string, Json)> := [
    (ChatInputId, Obj([])),
    ("ChatOutput-LYW8u", Obj([])),
    ("Prompt-pVgGQ", Obj([])),
    ("GoogleGenerativeAIModel-oCqMu", Obj([])),
    ("Memory-TKh6U", Obj([]))
  ]

  /** The arguments of one flow run. `tweaks` is `Null` when the caller passes
      none; `token` is `None` when no application token is configured. */
  datatype FlowRequest = FlowRequest(
    message: string,
    outputType: string,
    inputType: string,
    tweaks: Json,
    token: Option<string>)

  /** What goes on the wire: the POST target, the JSON body and the headers
      (a dict of strings, like the body a `Json` object). */
  datatype Request = Request(url: string, payload: Json, headers: Json)

  /** The reply body of the POST: JSON that decoded, or text that did not. */
  datatype Body = Decoded(json: Json) | Undecodable(reason: string)

  /** The run URL of a flow endpoint. */
  function RunUrl(endpoint: string): (url: string)
    ensures RunPrefix <= url
    ensures url[|RunPrefix|..] == endpoint
  {
    RunPrefix + endpoint
  }

  /** The JSON body: the message and both type markers always, the tweaks only
      when they are truthy. */
  function Payload(message: string, outputType: string, inputType: string, tweaks: Json): (p: Json)
    ensures p.Obj?
    ensures Field(p, "input_value") == Str(message)
    ensures Field(p, "output_type") == Str(outputType)
    ensures Field(p, "input_type") == Str(inputType)
    ensures HasKey(p, "tweaks") <==> Truthy(tweaks)
    ensures HasKey(p, "tweaks") ==> Field(p, "tweaks") == tweaks
    ensures |p.fields| >= 3 && p.fields[0].0 == "input_value" && p.fields[1].0 == "output_type" && p.fields[2].0 == "input_type"
    ensures |p.fields| == if Truthy(tweaks) then 4 else 3
  {
    var rest: seq<(string, Json)> := if Truthy(tweaks) then [("tweaks", tweaks)] else [];
    var f3 := [("input_type", Str(inputType))] + rest;
    var f2 := [("output_type", Str(outputType))] + f3;
    var fs := [("input_value", Str(message))] + f2;
    LookupCons(("input_value", Str(message)), f2, "input_value");
    LookupCons(("input_value", Str(message)), f2, "output_type");
    LookupCons(("output_type", Str(outputType)), f3, "output_type");
    LookupCons(("input_value", Str(message)), f2, "input_type");
    LookupCons(("output_type", Str(outputType)), f3, "input_type");
    LookupCons(("input_type", Str(inputType)), rest, "input_type");
    LookupCons(("input_value", Str(message)), f2, "tweaks");
    LookupCons(("output_type", Str(outputType)), f3, "tweaks");
    LookupCons(("input_type", Str(inputType)), rest, "tweaks");
    Obj(fs)
  }

  /** The headers: always the JSON content type; a bearer token only when the
      token is present and non-empty. */
  function Headers(token: Option<string>): (h: Json)
    ensures h.Obj?
    ensures Field(h, "Content-Type") == Str("application/json")
    ensures HasKey(h, "Authorization") <==> token.Some? && token.value != ""
    ensures HasKey(h, "Authorization") ==> Field(h, "Authorization") == Str("Bearer " + token.value)
    ensures |h.fields| <= 2
  {
    var rest: seq<(string, Json)> := if token.Some? && token.value != "" then [("Authorization", Str("Bearer " + token.value))] else [];
    LookupCons(("Content-Type", Str("application/json")), rest, "Content-Type");
    LookupCons(("Content-Type", Str("application/json")), rest, "Authorization");
    Obj([("Content-Type", Str("application/json"))] + rest)
  }

  /** The request `run_flow` sends for a flow run against `endpoint`. */
  function BuildRequest(endpoint: string, fr: FlowRequest): (r: Request)
    ensures r.url == RunPrefix + endpoint
    ensures Field(r.payload, "input_value") == Str(fr.message)
    ensures HasKey(r.payload, "tweaks") <==> Truthy(fr.tweaks)
    ensures Field(r.headers, "Content-Type") == Str("application/json")
    ensures HasKey(r.headers, "Authorization") <==> fr.token.Some? && fr.token.value != ""
  {
    Request(RunUrl(endpoint), Payload(fr.message, fr.outputType, fr.inputType, fr.tweaks), Headers(fr.token))
  }

  /** What a flow run is observably asked for: falsy tweaks are not sent, and
      neither is an empty token. */
  function Observable(fr: FlowRequest): FlowRequest {
    fr.(tweaks := if Truthy(fr.tweaks) then fr.tweaks else Null,
        token := if fr.token.Some? && fr.token.value != "" then fr.token else None)
  }

  /** How the receiving end reads a request back: the endpoint from the URL,
      the run arguments from the body, the token from the bearer header. */
  function ReadRequest(r: Request): Option<(string, FlowRequest)> {
    var message := Field(r.payload, "input_value");
    var outputType := Field(r.payload, "output_type");
    var inputType := Field(r.payload, "input_type");
    var auth := Field(r.headers, "Authorization");
    if RunPrefix <= r.url && message.Str? && outputType.Str? && inputType.Str? then
      var token := if auth.Str? && "Bearer " <= auth.s then Some(auth.s[|"Bearer "|..]) else None;
      Some((r.url[|RunPrefix|..], FlowRequest(message.s, outputType.s, inputType.s, Field(r.payload, "tweaks"), token)))
    else None
  }

  /** Reading a built request back recovers the endpoint and everything the
      run was observably asked for. */
  lemma ReadBuildRequest(endpoint: string, fr: FlowRequest)
    ensures ReadRequest(BuildRequest(endpoint, fr)) == Some((endpoint, Observable(fr)))
  {
    var r := BuildRequest(endpoint, fr);
    if fr.token.Some? && fr.token.value != "" {
      var a := "Bearer " + fr.token.value;
      assert "Bearer " <= a;
      assert a[|"Bearer "|..] == fr.token.value;
    }
  }

  /** Two endpoints never share a run URL. */
  lemma RunUrlInjective(e1: string, e2: string)
    requires RunUrl(e1) == RunUrl(e2)
    ensures e1 == e2
  {
    assert e1 == RunUrl(e1)[|RunPrefix|..];
  }

  /** `run_flow`'s result: the decoded body, or a dict whose only field is an
      `error` message when the body is not JSON. */
  function Response(body: Body): (j: Json)
    ensures body.Decoded? ==> j == body.json
    ensures body.Undecodable? ==> j.Obj? && Keys(j.fields) == ["error"] && Field(j, "error").Str?
  {
    match body
    case Decoded(json) => json
    case Undecodable(reason) => Obj([("error", Str("Failed to decode JSON response: " + reason))])
  }

  /** The data URI the chat-input component receives for a base64 JPEG. */
  function DataUri(b64: string): string {
    "data:image/jpeg;base64," + b64
  }

  /** A copy of `tweaks` whose chat-input entry is replaced by the image. */
  function WithImageTweak(tweaks: seq<(string, Json)>, b64: string): (r: seq<(string, Json)>)
    ensures Lookup(r, ChatInputId) == Some(Obj([("image", Str(DataUri(b64)))]))
    ensures forall k :: k != ChatInputId ==> Lookup(r, k) == Lookup(tweaks, k)
    ensures Lookup(tweaks, ChatInputId).Some? ==> Keys(r) == Keys(tweaks)
  {
    Assign(tweaks, ChatInputId, Obj([("image", Str(DataUri(b64)))]))
  }

  /** With the application's own tweaks, the image override keeps all five
      components in their order and touches only the chat input. */
  lemma ImageTweakOfDefaults(b64: string)
    ensures Keys(WithImageTweak(TweakFields, b64)) == Keys(TweakFields)
    ensures Field(Obj(WithImageTweak(TweakFields, b64)), ChatInputId) == Obj([("image", Str(DataUri(b64)))])
    ensures forall k :: k != ChatInputId ==> Field(Obj(WithImageTweak(TweakFields, b64)), k) == Field(Obj(TweakFields), k)
  {
    assert Lookup(TweakFields, ChatInputId).Some?;
  }

  /** The tweaks the application sends: the defaults, or the defaults with the
      uploaded image when there is one. */
  function TweaksFor(upload: Option<string>): (t: Json)
    ensures t.Obj? && Truthy(t)
    ensures Keys(t.fields) == Keys(TweakFields)
    ensures upload.Some? ==> Field(t, ChatInputId) == Obj([("image", Str(DataUri(upload.value)))])
    ensures upload.None? ==> Field(t, ChatInputId) == Obj([])
  {
    if upload.Some? then
      ImageTweakOfDefaults(upload.value);
      Obj(WithImageTweak(TweakFields, upload.value))
    else Obj(TweakFields)
  }

  /** The request the application sends for a prompt: the fixed endpoint,
      `chat` in and out, its tweaks, and the configured token. */
  function RequestFor(prompt: string, upload: Option<string>, token: Option<string>): (r: Request)
    ensures ReadRequest(r) == Some((Endpoint, Observable(FlowRequest(prompt, "chat", "chat", TweaksFor(upload), token))))
    ensures Field(Field(r.payload, "tweaks"), ChatInputId).Obj?
    ensures HasKey(Field(Field(r.payload, "tweaks"), ChatInputId), "image") <==> upload.Some?
  {
    var fr := FlowRequest(prompt, "chat", "chat", TweaksFor(upload), token);
    ReadBuildRequest(Endpoint, fr);
    BuildRequest(Endpoint, fr)
  }
}

=== FILE: normalizer.dfy ===
/** The reply normalisation of `app.py`: how each of the two chat handlers
    turns the flow's JSON reply into the items of one assistant turn or into
    the error it reports. The image handler (a picture was uploaded) and the
    text handler probe different shapes and are kept apart. A Python exception
    on an unexpected shape is the `Raise` result. */
module Normalizer {
  import opened PyJson

  /** One entry of an assistant turn's content list: text to render as
      markdown, or an image source. Each carries the JSON value the handler
      found, which the flow does not promise to be a string. */
  datatype Item = Text(body: Json) | Image(source: Json)

  /** The errors a handler reports instead of appending an assistant turn,
      each with the value it prints. */
  datatype ErrorKind =
    | ApiError(detail: Json)                // the reply's own `error` field
    | NoMessage(component: Json)            // `results.message` has neither text nor image
    | NoComponentOutputs(component: Json)   // no recognised shape in the first component output
    | NoFirstOutputs(output: Json)          // the first output has no `outputs`
    | NotRetrieved(response: Json)          // the reply has no `outputs`

  /** A handler either appends an assistant turn with these items or reports
      an error. */
  datatype Outcome = Reply(items: seq<Item>) | Err(kind: ErrorKind)

  /** How far the common descent `response["outputs"][0]["outputs"][0]` gets. */
  datatype Located = Found(component: Json) | Missing(kind: ErrorKind)

  /** The descent both handlers share: a truthy `outputs` on the reply, its
      first element, a truthy `outputs` on that, and its first element, the
      first component output. */
  function LocateComponent(resp: Json): (r: Py<Located>)
    ensures !Truthy(resp) ==> r == Ok(Missing(NotRetrieved(resp)))
    ensures r.Ok? && r.value.Missing? ==>
              r.value.kind.NotRetrieved? || r.value.kind.NoFirstOutputs?
    ensures r == Ok(Missing(NotRetrieved(resp))) <==> !Truthy(resp) || (resp.Obj? && !Truthy(Field(resp, "outputs")))
    ensures r.Ok? && r.value.Found? ==> ComponentOf(resp) == Some(r.value.component)
    ensures resp.Obj? && Head(Field(resp, "outputs")).Some? && Head(Field(resp, "outputs")).value.Obj?
            && !Truthy(Field(Head(Field(resp, "outputs")).value, "outputs")) ==>
              r == Ok(Missing(NoFirstOutputs(Head(Field(resp, "outputs")).value)))
    ensures r.Ok? && r.value.Missing? && r.value.kind.NoFirstOutputs? ==>
              var first := r.value.kind.output;
              Head(Field(resp, "outputs")) == Some(first) && first.Obj? && !Truthy(Field(first, "outputs"))
  {
    var outputs :- if Truthy(resp) then Get(resp, "outputs") else Ok(Null);
    if !Truthy(outputs) then Ok(Missing(NotRetrieved(resp)))
    else
      var first :- First(outputs);
      var inner :- Get(first, "outputs");
      if !Truthy(inner) then Ok(Missing(NoFirstOutputs(first)))
      else
        var component :- First(inner);
        Ok(Found(component))
  }

  /** The first component output of a reply, described by paths alone: the
      head of the reply's `outputs`, a dict, and the head of its `outputs`. */
  function ComponentOf(resp: Json): Option<Json> {
    var first := Head(Field(resp, "outputs"));
    if first.Some? && first.value.Obj? then Head(Field(first.value, "outputs")) else None
  }

  /** `first_component_output["message"]["text"]` (and the same access on a
      loop element): a crash unless `message` is a dict holding `text`. */
  function MessageText(component: Json): (r: Py<Json>)
    ensures r.Ok? <==> HasKey(component, "message") && HasKey(Field(component, "message"), "text")
    ensures r.Ok? ==> r.value == Field(Field(component, "message"), "text")
  {
    var message :- Index(component, "message");
    Index(message, "text")
  }

  /** The `message` under a truthy `results`, or `Null`: the value of
      `first_component_output.get("results") and
      first_component_output["results"].get("message")` as a truth test sees
      it. */
  function ResultsMessage(component: Json): (r: Py<Json>)
    ensures r.Ok? <==> component.Obj? && (!Truthy(Field(component, "results")) || Field(component, "results").Obj?)
    ensures r.Ok? && Truthy(r.value) ==> r.value == Field(Field(component, "results"), "message")
    ensures component.Obj? && Field(component, "results").Obj? ==> r == Ok(Field(Field(component, "results"), "message"))
  {
    var results :- Get(component, "results");
    if Truthy(results) then Get(results, "message") else Ok(Null)
  }

  /** The image handler. An `error` key wins before any shape is tried; then
      a truthy `results.message.text`, else a truthy `results.message.image`,
      else (no truthy `results.message`) a direct `message.text`. */
  function NormalizeImageReply(resp: Json): (r: Py<Outcome>)
    ensures HasKey(resp, "error") ==> r == Ok(Err(ApiError(Field(resp, "error"))))
    ensures (r.Ok? && r.value.Err? && r.value.kind.ApiError?) <==> HasKey(resp, "error")
    ensures resp.Obj? && !HasKey(resp, "error") && !Truthy(Field(resp, "outputs")) ==> r == Ok(Err(NotRetrieved(resp)))
    ensures !Truthy(resp) ==> r == if resp.Obj? || resp.Arr? || resp.Str? then Ok(Err(NotRetrieved(resp))) else Raise(TypeError)
    ensures resp.Obj? && !HasKey(resp, "error") && Head(Field(resp, "outputs")).Some? && Head(Field(resp, "outputs")).value.Obj?
            && !Truthy(Field(Head(Field(resp, "outputs")).value, "outputs")) ==>
              r == Ok(Err(NoFirstOutputs(Head(Field(resp, "outputs")).value)))
    ensures r.Ok? && r.value.Reply? ==> |r.value.items| == 1
    ensures r.Ok? && r.value.Reply? ==> ComponentOf(resp).Some?
  {
    var hasError :- Contains(resp, "error");
    if hasError then
      var detail :- Index(resp, "error");
      Ok(Err(ApiError(detail)))
    else
      var located :- LocateComponent(resp);
      match located
      case Missing(kind) => Ok(Err(kind))
      case Found(component) =>
        var message :- ResultsMessage(component);
        if Truthy(message) then
          var text :- Get(message, "text");
          if Truthy(text) then Ok(Reply([Text(text)]))
          else
            var image := Field(message, "image");  // `message` is a dict here
            if Truthy(image) then Ok(Reply([Image(image)]))
            else Ok(Err(NoMessage(component)))
        else
          // `component` is a dict here, so `in` is key membership.
          if HasKey(component, "message") then
            var text :- MessageText(component);
            Ok(Reply([Text(text)]))
          else Ok(Err(NoComponentOutputs(component)))
  }

  /** How the text handler's loop treats one element of a component's
      `outputs`: a dict with `message` gives its text, else a dict with
      `image` gives that image, a string is text, anything else is dropped. */
  function Classify(x: Json): (r: Py<Option<Item>>)
    ensures r == Ok(None) <==> !(x.Str? || HasKey(x, "message") || HasKey(x, "image"))
    ensures r.Raise? ==> HasKey(x, "message")
    ensures HasKey(x, "message") && !HasKey(Field(x, "message"), "text") ==> r.Raise?
    ensures HasKey(x, "message") && HasKey(Field(x, "message"), "text") ==>
              r == Ok(Some(Text(Field(Field(x, "message"), "text"))))
    ensures HasKey(x, "image") && !HasKey(x, "message") ==> r == Ok(Some(Image(Field(x, "image"))))
    ensures x.Str? ==> r == Ok(Some(Text(x)))
  {
    if HasKey(x, "message") then
      var text :- MessageText(x);
      Ok(Some(Text(text)))
    else if HasKey(x, "image") then Ok(Some(Image(Field(x, "image"))))
    else if x.Str? then Ok(Some(Text(x)))
    else Ok(None)
  }

  /** The items an element contributes: none or one. */
  function Kept(o: Option<Item>): seq<Item> {
    if o.Some? then [o.value] else []
  }

  /** The text handler's loop over a component's `outputs`: each element is
      classified in order, the kept items are collected in that order, and the
      first element that raises ends the run. */
  function Collect(xs: seq<Json>): (r: Py<seq<Item>>)
    ensures r.Raise? <==> exists i :: 0 <= i < |xs| && Classify(xs[i]).Raise?
    ensures r.Ok? ==> |r.value| <= |xs|
    ensures r.Ok? && |r.value| == |xs| ==> forall i :: 0 <= i < |xs| ==> Classify(xs[i]).value.Some?
    decreases |xs|
  {
    if |xs| == 0 then Ok([])
    else
      var head :- Classify(xs[0]);
      var tail := Collect(xs[1..]);
      assert forall i :: 1 <= i < |xs| ==> xs[1..][i - 1] == xs[i];
      var rest :- tail;
      Ok(Kept(head) + rest)
  }

  /** The text handler. It never looks for `error`; a truthy
      `results.message.text` wins, then a truthy component `outputs` list,
      then a direct `message.text`. */
  function NormalizeTextReply(resp: Json): (r: Py<Outcome>)
    ensures !(r.Ok? && r.value.Err? && r.value.kind.ApiError?)
    ensures !(r.Ok? && r.value.Err? && r.value.kind.NoMessage?)
    ensures !Truthy(resp) ==> r == Ok(Err(NotRetrieved(resp)))
    ensures resp.Obj? && !Truthy(Field(resp, "outputs")) ==> r == Ok(Err(NotRetrieved(resp)))
    ensures resp.Obj? && Head(Field(resp, "outputs")).Some? && Head(Field(resp, "outputs")).value.Obj?
            && !Truthy(Field(Head(Field(resp, "outputs")).value, "outputs")) ==>
              r == Ok(Err(NoFirstOutputs(Head(Field(resp, "outputs")).value)))
  {
    var located :- LocateComponent(resp);
    match located
    case Missing(kind) => Ok(Err(kind))
    case Found(component) =>
      var message :- ResultsMessage(component);
      var text :- if Truthy(message) then Get(message, "text") else Ok(Null);
      if Truthy(text) then Ok(Reply([Text(text)]))
      else
        var outputs := Field(component, "outputs");
        if Truthy(outputs) then
          var elems :- Iterate(outputs);
          var items :- Collect(elems);
          Ok(Reply(items))
        else
          // `component` is a dict here, so `in` is key membership.
          if HasKey(component, "message") then
            var text :- MessageText(component);
            Ok(Reply([Text(text)]))
          else Ok(Err(NoComponentOutputs(component)))
  }
}

=== FILE: normalizer_facts.dfy ===
/** What the two reply handlers promise, stated over reply shapes described by
    paths (`ComponentOf`, `Field`) rather than by the handlers' own steps. */
module NormalizerFacts {
  import opened PyJson
  import opened Normalizer

  /** The `message` under a component's `results`. */
  function ResultsMessageOf(component: Json): Json {
    Field(Field(component, "results"), "message")
  }

  /** A reply whose first component output is `component` is descended to it
      by both handlers without a crash. */
  lemma LocateComponentOf(resp: Json, component: Json)
    requires resp.Obj?
    requires ComponentOf(resp) == Some(component)
    ensures LocateComponent(resp) == Ok(Found(component))
  {
    var first := Head(Field(resp, "outputs")).value;
    assert Truthy(Field(resp, "outputs"));
    assert First(Field(resp, "outputs")) == Ok(first);
    assert Truthy(Field(first, "outputs"));
    assert First(Field(first, "outputs")) == Ok(component);
  }

  /** In the image handler, `error` is decided before any shape: on a dict the
      error is reported, and on a list or string that contains "error" the
      subscript `response['error']` raises. */
  lemma ImageErrorFirst(resp: Json)
    requires Contains(resp, "error") == Ok(true)
    ensures NormalizeImageReply(resp) ==
              if resp.Obj? then Ok(Err(ApiError(Field(resp, "error")))) else Raise(TypeError)
  {
  }

  /** Image handler priority under a truthy `results.message`: its truthy
      `text` wins, a truthy `image` is used only without one, and a message
      with neither is the "no message" error. */
  lemma ImageResultsPriority(resp: Json, component: Json)
    requires resp.Obj? && !HasKey(resp, "error")
    requires ComponentOf(resp) == Some(component)
    requires Field(component, "results").Obj?
    requires ResultsMessageOf(component).Obj? && Truthy(ResultsMessageOf(component))
    ensures var m := ResultsMessageOf(component);
            NormalizeImageReply(resp) ==
              if Truthy(Field(m, "text")) then Ok(Reply([Text(Field(m, "text"))]))
              else if Truthy(Field(m, "image")) then Ok(Reply([Image(Field(m, "image"))]))
              else Ok(Err(NoMessage(component)))
  {
    LocateComponentOf(resp, component);
  }

  /** Conversely, an image reply from the image handler always comes from a
      `results.message` whose `text` is absent or falsy. */
  lemma ImageReplyHasNoText(resp: Json, x: Json)
    requires NormalizeImageReply(resp) == Ok(Reply([Image(x)]))
    ensures ComponentOf(resp).Some?
    ensures var m := ResultsMessageOf(ComponentOf(resp).value);
            m.Obj? && !Truthy(Field(m, "text")) && Field(m, "image") == x && Truthy(x)
  {
    var located := LocateComponent(resp);
    assert located.Ok? && located.value.Found?;
  }

  /** Without a truthy `results.message` (falsy `results`, or a `results`
      dict whose `message` is falsy), the image handler falls back to the
      component's own `message.text`, which raises unless `message` is a dict
      holding `text`, and reports the component when it has no `message`. */
  lemma ImageDirectMessage(resp: Json, component: Json)
    requires resp.Obj? && !HasKey(resp, "error")
    requires ComponentOf(resp) == Some(component) && component.Obj?
    requires !Truthy(Field(component, "results"))
          || (Field(component, "results").Obj? && !Truthy(ResultsMessageOf(component)))
    ensures NormalizeImageReply(resp) ==
              if !HasKey(component, "message") then Ok(Err(NoComponentOutputs(component)))
              else if HasKey(Field(component, "message"), "text")
              then Ok(Reply([Text(Field(Field(component, "message"), "text"))]))
              else Raise(if Field(component, "message").Obj? then KeyError else TypeError)
  {
    LocateComponentOf(resp, component);
  }

  /** The text handler never reads `error`: a reply with an error and no
      truthy `outputs` is "could not retrieve", the same as `{}`. */
  lemma TextIgnoresError(resp: Json)
    requires HasKey(resp, "error")
    requires !Truthy(Field(resp, "outputs"))
    ensures NormalizeTextReply(resp) == Ok(Err(NotRetrieved(resp)))
    ensures NormalizeImageReply(resp) == Ok(Err(ApiError(Field(resp, "error"))))
  {
  }

  /** `results.message.text` is absent or falsy, and looking for it does not
      raise. */
  predicate NoResultsText(component: Json) {
    var results := Field(component, "results");
    var m := Field(results, "message");
    component.Obj?
    && (!Truthy(results) || (results.Obj? && (!Truthy(m) || (m.Obj? && !Truthy(Field(m, "text"))))))
  }

  /** In the text handler a truthy `results.message.text` wins. */
  lemma TextResultsWins(resp: Json, component: Json)
    requires resp.Obj? && ComponentOf(resp) == Some(component)
    requires Field(component, "results").Obj? && ResultsMessageOf(component).Obj?
    requires Truthy(Field(ResultsMessageOf(component), "text"))
    ensures NormalizeTextReply(resp) == Ok(Reply([Text(Field(ResultsMessageOf(component), "text"))]))
  {
    LocateComponentOf(resp, component);
  }

  /** Otherwise a truthy component `outputs` is iterated (a list's elements,
      a string's characters, a dict's keys; anything else raises) and gives
      one reply holding exactly what the loop collects, in order, even when
      that is nothing; an element that raises ends the run with no reply. */
  lemma TextOutputsList(resp: Json, component: Json)
    requires resp.Obj? && ComponentOf(resp) == Some(component)
    requires NoResultsText(component)
    requires Truthy(Field(component, "outputs"))
    ensures NormalizeTextReply(resp) ==
              match Iterate(Field(component, "outputs"))
              case Raise(e) => Raise(e)
              case Ok(xs) =>
                match Collect(xs)
                case Ok(items) => Ok(Reply(items))
                case Raise(e) => Raise(e)
  {
    LocateComponentOf(resp, component);
    var message := ResultsMessage(component);
    assert message.Ok?;
    var text := if Truthy(message.value) then Get(message.value, "text") else Ok(Null);
    assert text.Ok? && !Truthy(text.value);
  }

  /** Failing both, the text handler falls back to the component's own
      `message.text`, and reports the component when it has no `message`. */
  lemma TextDirectMessage(resp: Json, component: Json)
    requires resp.Obj? && ComponentOf(resp) == Some(component)
    requires NoResultsText(component)
    requires !Truthy(Field(component, "outputs"))
    ensures NormalizeTextReply(resp) ==
              if !HasKey(component, "message") then Ok(Err(NoComponentOutputs(component)))
              else if HasKey(Field(component, "message"), "text")
              then Ok(Reply([Text(Field(Field(component, "message"), "text"))]))
              else Raise(if Field(component, "message").Obj? then KeyError else TypeError)
  {
    LocateComponentOf(resp, component);
    var message := ResultsMessage(component);
    assert message.Ok?;
    var text := if Truthy(message.value) then Get(message.value, "text") else Ok(Null);
    assert text.Ok? && !Truthy(text.value);
  }

  /** The loop is a homomorphism over concatenation: collecting `xs + ys`
      collects `xs` and then `ys`, the first raise winning. So the items keep
      the order of the elements they came from. */
  lemma {:induction false} CollectAppend(xs: seq<Json>, ys: seq<Json>)
    ensures Collect(xs + ys) ==
              match Collect(xs)
              case Raise(e) => Raise(e)
              case Ok(a) =>
                match Collect(ys)
                case Raise(e) => Raise(e)
                case Ok(b) => Ok(a + b)
    decreases |xs|
  {
    if |xs| == 0 {
      assert xs + ys == ys;
      assert Collect(xs) == Ok([]);
      if Collect(ys).Ok? {
        assert [] + Collect(ys).value == Collect(ys).value;
      }
    } else {
      assert (xs + ys)[0] == xs[0];
      assert (xs + ys)[1..] == xs[1..] + ys;
      CollectAppend(xs[1..], ys);
      var head := Classify(xs[0]);
      if head.Ok? && Collect(xs[1..]).Ok? && Collect(ys).Ok? {
        assert Kept(head.value) + (Collect(xs[1..]).value + Collect(ys).value)
            == (Kept(head.value) + Collect(xs[1..]).value) + Collect(ys).value;
      }
    }
  }

  /** A list of bare strings is shown as those strings, one text item each,
      in order. */
  lemma {:induction false} CollectStrings(xs: seq<Json>)
    requires forall i :: 0 <= i < |xs| ==> xs[i].Str?
    ensures Collect(xs).Ok?
    ensures |Collect(xs).value| == |xs|
    ensures forall i :: 0 <= i < |xs| ==> Collect(xs).value[i] == Text(xs[i])
    decreases |xs|
  {
    if |xs| > 0 {
      CollectStrings(xs[1..]);
      assert Classify(xs[0]) == Ok(Some(Text(xs[0])));
      var rest := Collect(xs[1..]).value;
      assert Collect(xs).value == [Text(xs[0])] + rest;
      forall i | 1 <= i < |xs|
        ensures Collect(xs).value[i] == Text(xs[i])
      {
        assert rest[i - 1] == Text(xs[1..][i - 1]);
      }
    }
  }

  /** Elements that are neither strings nor dicts with `message` or `image`
      are dropped: the reply can be empty. */
  lemma {:induction false} CollectDropsOthers(xs: seq<Json>)
    requires forall i :: 0 <= i < |xs| ==> !(xs[i].Str? || xs[i].Obj?)
    ensures Collect(xs) == Ok([])
    decreases |xs|
  {
    if |xs| > 0 {
      CollectDropsOthers(xs[1..]);
    }
  }

  /** A string or dict `outputs` is iterated too: every character, or every
      key, becomes one text item, in order. */
  lemma CollectIteratedText(j: Json)
    requires j.Str? || j.Obj?
    ensures var xs := Iterate(j).value;
            && Collect(xs).Ok?
            && |Collect(xs).value| == |xs|
            && forall i :: 0 <= i < |xs| ==> Collect(xs).value[i] == Text(xs[i])
  {
    CollectStrings(Iterate(j).value);
  }

  /** A one-element list is collected as that element's classification. */
  lemma CollectOne(x: Json)
    ensures Collect([x]) ==
              match Classify(x)
              case Raise(e) => Raise(e)
              case Ok(o) => Ok(Kept(o))
  {
    assert [x][1..] == [];
    assert Collect([]) == Ok([]);
    if Classify(x).Ok? {
      assert Kept(Classify(x).value) + [] == Kept(Classify(x).value);
    }
  }

  /** The mixed list `[{"message": {"text": "a"}}, {"image": "b"}, "c"]` is
      shown as text "a", image "b", text "c". */
  lemma MixedOutputs()
    ensures Collect([Obj([("message", Obj([("text", Str("a"))]))]), Obj([("image", Str("b"))]), Str("c")])
         == Ok([Text(Str("a")), Image(Str("b")), Text(Str("c"))])
  {
    var m := Obj([("message", Obj([("text", Str("a"))]))]);
    var i := Obj([("image", Str("b"))]);
    assert Classify(m) == Ok(Some(Text(Str("a"))));
    assert Classify(i) == Ok(Some(Image(Str("b"))));
    CollectOne(m);
    CollectOne(i);
    CollectOne(Str("c"));
    assert Collect([m]) == Ok([Text(Str("a"))]);
    assert Collect([i]) == Ok([Image(Str("b"))]);
    assert Collect([Str("c")]) == Ok([Text(Str("c"))]);
    CollectAppend([i], [Str("c")]);
    assert [i] + [Str("c")] == [i, Str("c")];
    assert [Image(Str("b"))] + [Text(Str("c"))] == [Image(Str("b")), Text(Str("c"))];
    assert Collect([i, Str("c")]) == Ok([Image(Str("b")), Text(Str("c"))]);
    CollectAppend([m], [i, Str("c")]);
    assert [m] + [i, Str("c")] == [m, i, Str("c")];
    assert [Text(Str("a"))] + [Image(Str("b")), Text(Str("c"))] == [Text(Str("a")), Image(Str("b")), Text(Str("c"))];
  }

  /** Through the whole text handler: a reply whose first component output
      is `{"outputs": [[0.0], true, null]}` gets a reply with no items. */
  lemma EmptyReplyExample()
    ensures NormalizeTextReply(
              Obj([("outputs", Arr([Obj([("outputs", Arr([Obj([("outputs", Arr([Arr([Num(0.0)]), Bool(true), Null]))])]))])]))]))
         == Ok(Reply([]))
  {
    var xs := [Arr([Num(0.0)]), Bool(true), Null];
    var component := Obj([("outputs", Arr(xs))]);
    var resp := Obj([("outputs", Arr([Obj([("outputs", Arr([component]))])]))]);
    assert ComponentOf(resp) == Some(component);
    CollectDropsOthers(xs);
    TextOutputsList(resp, component);
  }
}

=== FILE: pyjson.dfy ===
/** Decoded JSON values as the chat front-end holds them in Python, and the few
    Python operations its handlers apply to them (`in`, `.get`, subscripts,
    iteration, truth tests), with every exception Python would raise made an
    explicit value. */
module PyJson {

  datatype Option<+T> = None | Some(value: T) {
    function GetOr(default: T): T {
      match this
      case Some(v) => v
      case None => default
    }
  }

  /** A decoded JSON value. An object keeps its fields in document order, as a
      Python dict does; a JSON decoder never yields two fields with one key. */
  datatype Json =
    | Null
    | Bool(b: bool)
    | Num(n: real)
    | Str(s: string)
    | Arr(elems: seq<Json>)
    | Obj(fields: seq<(string, Json)>)

  /** The Python exceptions a handler raises on an unexpected shape, and
      `LibraryError` for one raised inside a library call (the HTTP request,
      opening or encoding the uploaded picture). */
  datatype Exc = TypeError | KeyError | IndexError | AttributeError | LibraryError

  /** The result of evaluating a Python expression: a value, or an exception
      that ends the script run. Failure-compatible, so `:-` propagates it. */
  datatype Py<+T> = Ok(value: T) | Raise(exc: Exc) {
    predicate IsFailure() {
      Raise?
    }

    function PropagateFailure<U>(): Py<U>
      requires Raise?
    {
      Raise(exc)
    }

    function Extract(): T
      requires Ok?
    {
      value
    }
  }

  /** Python truthiness: `None`, `False`, zero and empty containers are false. */
  predicate Truthy(j: Json) {
    match j
    case Null => false
    case Bool(b) => b
    case Num(n) => n != 0.0
    case Str(s) => |s| > 0
    case Arr(a) => |a| > 0
    case Obj(fs) => |fs| > 0
  }

  /** The value of the first field named `k`. */
  function Lookup(fs: seq<(string, Json)>, k: string): (r: Option<Json>)
    ensures r.Some? <==> exists i :: 0 <= i < |fs| && fs[i].0 == k
    ensures r.Some? ==> exists i :: 0 <= i < |fs| && fs[i] == (k, r.value)
    decreases |fs|
  {
    if |fs| == 0 then None
    else if fs[0].0 == k then Some(fs[0].1)
    else
      var r := Lookup(fs[1..], k);
      assert forall i :: 0 <= i < |fs[1..]| ==> fs[1..][i] == fs[i + 1];
      r
  }

  /** Looking a key up in a dict whose first field is known. */
  lemma LookupCons(f: (string, Json), rest: seq<(string, Json)>, k: string)
    ensures Lookup([f] + rest, k) == if f.0 == k then Some(f.1) else Lookup(rest, k)
  {
    assert ([f] + rest)[1..] == rest;
  }

  /** The field names of a dict, in order. */
  function Keys(fs: seq<(string, Json)>): (ks: seq<string>)
    ensures |ks| == |fs|
    ensures forall i :: 0 <= i < |fs| ==> ks[i] == fs[i].0
  {
    seq(|fs|, i requires 0 <= i < |fs| => fs[i].0)
  }

  /** `isinstance(j, dict) and k in j`. */
  predicate HasKey(j: Json, k: string) {
    j.Obj? && Lookup(j.fields, k).Some?
  }

  /** The value a dict holds under `k`, `Null` when there is none: what `.get`
      answers on a dict, written without the exception. */
  function Field(j: Json, k: string): Json {
    if j.Obj? then Lookup(j.fields, k).GetOr(Null) else Null
  }

  /** `needle` occurs in `hay` as a contiguous run (Python's `in` on strings). */
  predicate IsInfix(needle: string, hay: string)
    decreases |hay|
  {
    needle <= hay || (|hay| > 0 && IsInfix(needle, hay[1..]))
  }

  /** `needle` is the slice of `hay` starting at offset `i`. */
  predicate OccursAt(needle: string, hay: string, i: int) {
    0 <= i && i + |needle| <= |hay| && hay[i..i + |needle|] == needle
  }

  /** `IsInfix` agrees with the positional reading: `needle` is the slice of
      `hay` at some offset. */
  lemma {:induction false} IsInfixAt(needle: string, hay: string)
    ensures IsInfix(needle, hay) <==> exists i :: OccursAt(needle, hay, i)
    decreases |hay|
  {
    if needle <= hay {
      assert OccursAt(needle, hay, 0);
    } else if |hay| == 0 {
      assert forall i :: !OccursAt(needle, hay, i);
    } else {
      IsInfixAt(needle, hay[1..]);
      if IsInfix(needle, hay[1..]) {
        var i :| OccursAt(needle, hay[1..], i);
        assert hay[1..][i..i + |needle|] == hay[i + 1..i + 1 + |needle|];
        assert OccursAt(needle, hay, i + 1);
      }
      if exists i :: OccursAt(needle, hay, i) {
        var i :| OccursAt(needle, hay, i);
        // i == 0 would make `needle` a prefix of `hay`.
        if i != 0 {
          assert hay[1..][i - 1..i - 1 + |needle|] == hay[i..i + |needle|];
          assert OccursAt(needle, hay[1..], i - 1);
        }
      }
    }
  }

  /** `k in j` for a string `k`: key membership on a dict, element equality on
      a list, substring on a string; any other operand is a TypeError. */
  function Contains(j: Json, k: string): (r: Py<bool>)
    ensures r.Raise? <==> !(j.Obj? || j.Arr? || j.Str?)
    ensures j.Obj? ==> r == Ok(HasKey(j, k))
    ensures j.Arr? ==> (r == Ok(true) <==> exists i :: 0 <= i < |j.elems| && j.elems[i] == Str(k))
    ensures j.Str? ==> (r == Ok(true) <==> exists i :: OccursAt(k, j.s, i))
  {
    match j
    case Obj(_) => Ok(HasKey(j, k))
    case Arr(a) => Ok(Str(k) in a)
    case Str(s) =>
      IsInfixAt(k, s);
      Ok(IsInfix(k, s))
    case _ => Raise(TypeError)
  }

  /** `j.get(k)`: only a dict has the method. */
  function Get(j: Json, k: string): (r: Py<Json>)
    ensures r.Ok? <==> j.Obj?
    ensures r.Ok? ==> r.value == Field(j, k)
  {
    match j
    case Obj(_) => Ok(Field(j, k))
    case _ => Raise(AttributeError)
  }

  /** `j[k]` for a string `k`: a KeyError on a dict without the key, a
      TypeError on anything but a dict. */
  function Index(j: Json, k: string): (r: Py<Json>)
    ensures r.Ok? <==> HasKey(j, k)
    ensures r.Ok? ==> r.value == Field(j, k)
  {
    match j
    case Obj(fs) =>
      var v := Lookup(fs, k);
      if v.Some? then Ok(v.value) else Raise(KeyError)
    case _ => Raise(TypeError)
  }

  /** `j[0]`: a list's first element, a string's first character as a
      one-character string; a dict has no key `0` (JSON keys are strings). */
  function First(j: Json): (r: Py<Json>)
    ensures r.Ok? <==> (j.Arr? && |j.elems| > 0) || (j.Str? && |j.s| > 0)
    ensures j.Arr? && |j.elems| > 0 ==> r == Ok(j.elems[0])
  {
    match j
    case Arr(a) => if |a| > 0 then Ok(a[0]) else Raise(IndexError)
    case Str(s) => if |s| > 0 then Ok(Str([s[0]])) else Raise(IndexError)
    case Obj(_) => Raise(KeyError)
    case _ => Raise(TypeError)
  }

  /** `for x in j`: a list yields its elements, a string its characters, a
      dict its keys; numbers, booleans and `None` are not iterable. */
  function Iterate(j: Json): (r: Py<seq<Json>>)
    ensures r.Ok? <==> j.Arr? || j.Str? || j.Obj?
    ensures j.Arr? ==> r == Ok(j.elems)
    ensures j.Str? ==> r.Ok? && |r.value| == |j.s|
    ensures j.Str? ==> forall i :: 0 <= i < |j.s| ==> r.value[i] == Str([j.s[i]])
    ensures j.Obj? ==> r.Ok? && |r.value| == |j.fields|
    ensures j.Obj? ==> forall i :: 0 <= i < |j.fields| ==> r.value[i] == Str(Keys(j.fields)[i])
  {
    match j
    case Arr(a) => Ok(a)
    case Str(s) => Ok(seq(|s|, i requires 0 <= i < |s| => Str([s[i]])))
    case Obj(fs) => Ok(seq(|fs|, i requires 0 <= i < |fs| => Str(fs[i].0)))
    case _ => Raise(TypeError)
  }

  /** `j[0]` where it does not raise: the first element of a non-empty list
      or the first character of a non-empty string. */
  function Head(j: Json): Option<Json> {
    if j.Arr? && |j.elems| > 0 then Some(j.elems[0])
    else if j.Str? && |j.s| > 0 then Some(Str([j.s[0]]))
    else None
  }

  /** `j[0]` raises exactly where `Head` has no answer, and otherwise gives
      it; in particular it succeeds on every truthy list or string. */
  lemma FirstIsHead(j: Json)
    ensures First(j).Ok? <==> Head(j).Some?
    ensures First(j).Ok? ==> First(j).value == Head(j).value
    ensures Truthy(j) && (j.Arr? || j.Str?) ==> First(j).Ok?
  {
  }

  /** After a truthy `j.get(k)`, the subscript `j[k]` does not raise and
      yields the same value: the handlers' `.get` test guards each of their
      `[k]` accesses. */
  lemma GetThenIndex(j: Json, k: string)
    requires Get(j, k).Ok? && Truthy(Get(j, k).value)
    ensures Index(j, k) == Get(j, k)
  {
  }

  /** After a true `k in j`, the subscript `j[k]` succeeds exactly on a dict,
      where it agrees with `.get`; on a list or string it is a TypeError. */
  lemma ContainsThenIndex(j: Json, k: string)
    requires Contains(j, k) == Ok(true)
    ensures Index(j, k).Ok? <==> j.Obj?
    ensures j.Obj? ==> Index(j, k) == Get(j, k)
    ensures !j.Obj? ==> Index(j, k) == Raise(TypeError)
  {
  }

  /** `d[k] = v` on a copy of dict `d`: every field named `k` takes the value
      `v`; when there is none, the field is added last. */
  function Assign(fs: seq<(string, Json)>, k: string, v: Json): (r: seq<(string, Json)>)
    ensures Lookup(r, k) == Some(v)
    ensures forall k' :: k' != k ==> Lookup(r, k') == Lookup(fs, k')
    ensures Lookup(fs, k).Some? ==> Keys(r) == Keys(fs)
    ensures Lookup(fs, k).None? ==> r == fs + [(k, v)]
  {
    if Lookup(fs, k).Some? then Overwrite(fs, k, v)
    else
      LookupAppendAll(fs, k, v);
      fs + [(k, v)]
  }

  /** Every field named `k` takes the value `v`, in place. */
  function Overwrite(fs: seq<(string, Json)>, k: string, v: Json): (r: seq<(string, Json)>)
    ensures Keys(r) == Keys(fs)
    ensures Lookup(fs, k).Some? ==> Lookup(r, k) == Some(v)
    ensures forall k' :: k' != k ==> Lookup(r, k') == Lookup(fs, k')
    decreases |fs|
  {
    if |fs| == 0 then []
    else [if fs[0].0 == k then (k, v) else fs[0]] + Overwrite(fs[1..], k, v)
  }

  lemma LookupAppendAll(fs: seq<(string, Json)>, k: string, v: Json)
    requires Lookup(fs, k).None?
    ensures forall k' :: Lookup(fs + [(k, v)], k') == if k' == k then Some(v) else Lookup(fs, k')
  {
    forall k' {
      LookupAppend(fs, k, v, k');
    }
  }

  /** Appending one field with a new key does not change what the other keys
      find, and the new key finds its value. */
  lemma {:induction false} LookupAppend(fs: seq<(string, Json)>, k: string, v: Json, k': string)
    requires Lookup(fs, k).None?
    ensures Lookup(fs + [(k, v)], k') == if k' == k then Some(v) else Lookup(fs, k')
    decreases |fs|
  {
    if |fs| == 0 {
    } else {
      assert (fs + [(k, v)])[1..] == fs[1..] + [(k, v)];
      if fs[0].0 != k' {
        LookupAppend(fs[1..], k, v, k');
      }
    }
  }
}
